=== FILE: README.md ===
# Home security server: a verified model

This project models the request handling of a small alarm-control server. The server
keeps an in-memory arming state `{armed, alarmTriggered}` that starts as
`{false, false}`. It changes that state through `POST /arm`, `POST /disarm` and
`POST /trigger`, and reports it through `GET /state`. It also keeps two append-only
stores of telemetry, sensor readings and images. These are filled by
`POST /api/batch-update`, `POST /api/sensor-data` and `POST /api/all-image-data`.
They are read by `GET /api/sensor-data`, `GET /api/image-data` and
`GET /api/latest-image`.

Modules:

- `JsValues` (js_value.dfy): request-body values. It has JavaScript truthiness
  (`Truthy`: undefined, null, false, 0 and "" are falsy; every array and object is
  truthy). It also has destructuring, which throws a TypeError on null and undefined.
- `Http` (http.dfy): the status codes 200, 400, 403, 404 and 500.
- `Alarm` (alarm.dfy): the arming state machine, as pure transition functions.
- `Telemetry` (telemetry.dfy): records, the presence tests, the batch filter (the
  `forEach`/`push` loop), the batch update and the single-record posts.
- `LatestImage` (latest_image.dfy): the `reduce` that picks the latest image.
  `new Date(...)` is a parameter `dateOf` returning a time value or NaN.
- `Server` (server.dfy): the whole server, as one state with one handler per route,
  and invariants over every sequence of requests.

Behaviour of the code that the model keeps:

- `arm` and `disarm` commit at once and always answer 200. They contact no other
  device and have no failure path.
- There is no stop-alarm operation. An alarm is cleared only by disarming.
- The state routes are `POST /arm`, `POST /disarm`, `POST /trigger` and
  `GET /state`. The single-image post is `POST /api/all-image-data`.
- An uncaught TypeError becomes Express's default 500 reply. This happens when
  destructuring a null or undefined batch entry, and when calling `forEach` on a
  truthy value that is not an array.
- In a batch update the sensor file is written before the images are processed.
  So a batch whose `images` side throws answers 500 and still keeps its new sensor
  records. A batch whose sensor side throws changes neither store.
- On a non-empty image store the reducer keeps `latest` only when it is strictly
  later. So on a tie the later element wins. Because `>` with NaN is false, a last
  image whose timestamp does not parse always wins.

## Model

| member | source | states |
|---|---|---|
| `JsValues.Truthy` | server.js:43-61 | The falsy values are exactly undefined, null, false, 0 and the empty string. Every array and object is truthy, and so is Infinity. |
| `JsValues.Prop` | server.js:41 | A destructured field is the object's own property when present. It is undefined otherwise, and for every non-object. |
| `Telemetry.SensorOf` | server.js:50 | Destructuring an entry gives its `sensorType`, `value` and `timestamp`. A non-object gives three undefined fields. |
| `Telemetry.ImageOf` | server.js:60 | Destructuring an entry gives its `image` and `timestamp`. A non-object gives two undefined fields. |
| `Telemetry.ValidSensor` | server.js:114 | A sensor record is rejected exactly when one of its three fields is falsy, so a `value` of 0 or "" counts as missing. This matches the batch test at line 51. |
| `Telemetry.ValidImage` | server.js:129 | An image record is rejected exactly when `image` or `timestamp` is falsy. This matches the batch test at line 61. |
| `LatestImage.Later` | server.js:151 | Date `>` is true exactly when both times parse and the left one is strictly greater. It is never true when either side is NaN or when the two times are equal. |
| `LatestImage.Pick` | server.js:150-152 | The reducer returns one of its two arguments. It keeps `latest` exactly when `latest` is strictly later than `current`. On a tie, or when either timestamp is NaN, it returns `current`. |
| `Alarm.GetState` | server.js:71-76 | Reading the state answers 200 with the current state and changes nothing. |
| `Alarm.ArmSystem` | server.js:79-87 | Arming always answers 200. On an armed state it reports "already armed" and leaves the state as it was. Otherwise it sets `armed`. The alarm flag is never touched. |
| `Alarm.DisarmSystem` | server.js:90-98 | Disarming always answers 200 and always ends disarmed. On a disarmed state it is a no-op. On an armed state it clears both flags, whatever the alarm flag was. |
| `Alarm.TriggerAlarm` | server.js:101-108 | Triggering answers 200 exactly when the system is armed, and the state becomes armed and alarming. Otherwise it answers 403 and leaves the state unchanged. |
| `Alarm.OnlyTriggerIsRefused` | server.js:71-108 | Across the four state handlers, the only non-200 answer is 403, given exactly to a trigger on a disarmed system. |
| `Alarm.RefusalChangesNothing` | server.js:105-107 | A refused request leaves the arming state unchanged. |
| `Alarm.StepKeepsConsistent` | server.js:84-103 | Every state handler preserves "alarm triggered implies armed". |
| `Alarm.RunKeepsConsistent` | server.js:79-108 | Every sequence of state requests preserves "alarm triggered implies armed". |
| `Alarm.ReachableIffConsistent` | server.js:15-108 | A state is reachable from the initial `{false, false}` exactly when it satisfies "alarm triggered implies armed". |
| `Alarm.DisarmQuiets` | server.js:91-96 | From any reachable state, a disarm ends in `{false, false}`. |
| `Alarm.TransitionsIdempotent` | server.js:80-104 | Repeating an arm, a disarm or a trigger does not change the state again. |
| `Alarm.ArmThenTrigger` | server.js:84-104 | Arming any state and then triggering answers 200 and ends armed and alarming. |
| `Telemetry.Kept` | server.js:49-54 | The per-entry filter throws exactly when some entry is null or undefined. Otherwise it keeps at most as many records as there are entries, and every kept record passes the presence test. |
| `Telemetry.KeptOne` | server.js:50-53 | One entry throws when it is null or undefined. Otherwise it yields its record when every field is truthy, and nothing when not. |
| `Telemetry.KeptSplit` | server.js:49-54 | The filter of a concatenation is the concatenation of the filters. With KeptOne, this fixes the output as the valid entries in input order. |
| `Telemetry.KeptMembers` | server.js:59-64 | A record is pushed exactly when some entry destructures to it and it passes the presence test. |
| `Telemetry.KeptAllValid` | server.js:49-54 | When every entry is complete, nothing is dropped, and the i-th record is the i-th entry's fields. |
| `Telemetry.AppendKept` | server.js:48-55 | The read-then-`forEach`-`push` loop gives the old store followed by the kept records, or a throw when some entry is null or undefined. |
| `Telemetry.BatchUpdate` | server.js:40-68 | 400 exactly when `sensors` or `images` is falsy, and then neither store changes. 200 exactly when both are arrays without null or undefined entries, and then each store becomes the old store followed by its valid entries, in order. The sensor store is committed exactly when the request reaches the sensor write; otherwise it is unchanged. On a 500 the image store is unchanged. In every outcome the old stores are prefixes of the new ones, and only valid records are added. |
| `Telemetry.PostSensorData` | server.js:111-123 | 200 exactly when the body has all three fields truthy. 400 exactly when `sensorType`, `value` or `timestamp` is falsy. Any non-200 answer leaves the store unchanged. On 200, the store grows by exactly the posted record, at the end. |
| `Telemetry.PostImageData` | server.js:126-138 | 200 exactly when the body has `image` and `timestamp` truthy. 400 exactly when `image` or `timestamp` is falsy. Any non-200 answer leaves the store unchanged. On 200, the store grows by exactly the posted record, at the end. |
| `Telemetry.SingleMatchesBatch` | server.js:51-53 | A single sensor or image post stores exactly what a batch of that one entry would, so the two presence tests agree. |
| `LatestImage.Reduce` | server.js:150-152 | The fold returns its initial element or an element of the rest. |
| `LatestImage.SelectLatest` | server.js:141-152 | "No image data" exactly when the store is empty. Otherwise the result is an image from the store. |
| `LatestImage.LatestIn` | server.js:150-152 | The index the fold keeps among the first n images is below n. It is the last one unless it holds a strictly later time. |
| `LatestImage.LatestInIsLastMax` | server.js:150-152 | With parseable timestamps, the kept index holds a greatest timestamp, and every later image is strictly earlier. |
| `LatestImage.LastMaxUnique` | server.js:150-152 | At most one index is the last one holding a greatest timestamp. |
| `LatestImage.ReduceFollowsLatestIn` | server.js:150-152 | The element-level reduce and the index-level fold select the same image. |
| `LatestImage.SelectLatestIsLatestIn` | server.js:145-152 | On a non-empty store, the selected image is the one at the fold's index. |
| `LatestImage.SelectLatestIsLastMax` | server.js:145-152 | On a non-empty store with parseable timestamps, the result is the image with the greatest timestamp, and the last such image on a tie. |
| `LatestImage.LastImageWinsUnlessBeaten` | server.js:150-152 | The result is the last image unless its time is strictly exceeded. A last image whose timestamp does not parse always wins. |
| `Server.Handle` | server.js:40-171 | Each route runs its own handler. GET /state reports the current state. POST /arm answers 200 and ends armed with the alarm flag untouched. POST /disarm answers 200 and ends disarmed, in `{false, false}` when it was armed. POST /trigger ends in `{true, true}` with 200 when armed, and answers 403 with the state unchanged otherwise. The batch, sensor and image posts give exactly the status and stores of their handlers. GET /api/latest-image answers the selected image, or 404 on an empty store. The two listings answer the stores as they are. State routes leave the stores alone, telemetry routes leave the state alone, and reads change nothing. The stores only ever grow, and only by valid records. |
| `Server.HandleKeepsHealthy` | server.js:40-171 | Every handler keeps the state consistent and every stored record complete. |
| `Server.RunKeepsHealthy` | server.js:40-171 | Every sequence of requests keeps the state consistent and every stored record complete. |
| `Server.RunOnlyAppends` | server.js:40-138 | Across any sequence of requests, earlier stores are prefixes of later ones: no record is changed, removed or reordered. |
| `Server.BootIsHealthy` | server.js:15-31 | Starting from the initial state and empty data files, every reachable server is healthy. |
| `Server.PostedSensorIsListed` | server.js:111-165 | After a successful sensor post, the next sensor listing is the old store followed by the posted record. |

## Left out

- Express routing, body parsing and JSON serialisation of replies are left out. Replies are a status plus a body kind. A malformed JSON body is refused by the body parser before any handler runs, which is not modelled.
- File I/O is left out: `ensureFileExists`, `readJsonFile` and `writeJsonFile`. Each store is an in-memory sequence, and a corrupted data file is not modelled.
- A JSON write-then-read of a stored record is taken as the identity, but it is not one for infinite numbers. A body field of `1e400` parses as Infinity, which is truthy, so it passes the presence test. `JSON.stringify` then writes it as `null`, which is falsy, so the file can hold a record with a falsy field. Server.RunKeepsHealthy, Server.PostedSensorIsListed and LatestImage.SelectLatest describe the in-memory stores, not what the files give back for such a record. For GET /api/latest-image, an Infinity `timestamp` comes back from the file as `null`. The code then computes `new Date(null)`, which is the epoch, and answers a `null` timestamp. The model instead applies `dateOf` to Infinity, which gives NaN.
- `new Date(...)` is a foreign library call. It is the parameter `dateOf`, a time value in milliseconds or NaN.
- Every handler runs synchronously from its file read to its file write, with no await or callback in between. So a single Node process handles the requests one at a time, which is what the model does. Several processes sharing the two data files could lose updates, but the code starts only one, so that case is not modelled.
- `console.log` calls and `app.listen` are left out.
- The model has no remote device notifier and no stop-alarm operation, because the server code has neither.
- Property reads take the properties the server names to be own properties of a parsed object. None of them is inherited from a built-in prototype.
- LatestImage.SelectLatestIsLastMax: the maximum property is stated only when every timestamp parses. With NaN in the middle of the store, `>` is not a total order. Then the model states only membership and LastImageWinsUnlessBeaten.

=== FILE: alarm.dfy ===
/** The in-memory arming state of the server and the four handlers that read
    or change it: GET /state, POST /arm, POST /disarm and POST /trigger.
    Every transition commits at once; nothing is asked of a remote device. */
module Alarm {
  import opened Http

  datatype SystemState = SystemState(armed: bool, alarmTriggered: bool)

  /** The state the process starts in. */
  const Initial := SystemState(false, false)

  /** The consistency property: an alarm is only ever active on an armed system. */
  predicate Consistent(s: SystemState) {
    s.alarmTriggered ==> s.armed
  }

  datatype Op = Query | Arm | Disarm | Trigger

  /** The `message` text of each reply, by kind. */
  datatype Message =
    | StateRetrieved
    | AlreadyArmed
    | ArmedNow
    | AlreadyDisarmed
    | DisarmedNow
    | AlarmTriggered
    | CannotTrigger

  /** What a handler answers (status, message, state snapshot); `state` is
      also the state the server holds afterwards. */
  datatype Outcome = Outcome(status: Status, message: Message, state: SystemState)

  function GetState(s: SystemState): (r: Outcome)
    ensures r.status == Ok && r.message == StateRetrieved
    ensures r.state == s
  {
    Outcome(Ok, StateRetrieved, s)
  }

  function ArmSystem(s: SystemState): (r: Outcome)
    ensures r.status == Ok
    ensures s.armed ==> r.message == AlreadyArmed && r.state == s
    ensures !s.armed ==> r.message == ArmedNow && r.state.armed
    ensures r.state.alarmTriggered == s.alarmTriggered
  {
    if s.armed then Outcome(Ok, AlreadyArmed, s)
    else Outcome(Ok, ArmedNow, s.(armed := true))
  }

  function DisarmSystem(s: SystemState): (r: Outcome)
    ensures r.status == Ok
    ensures !s.armed ==> r.message == AlreadyDisarmed && r.state == s
    ensures s.armed ==> r.message == DisarmedNow && r.state == SystemState(false, false)
    ensures !r.state.armed
  {
    if !s.armed then Outcome(Ok, AlreadyDisarmed, s)
    else Outcome(Ok, DisarmedNow, SystemState(false, false))
  }

  function TriggerAlarm(s: SystemState): (r: Outcome)
    ensures r.status == Ok <==> s.armed
    ensures r.status == Forbidden <==> !s.armed
    ensures !s.armed ==> r.message == CannotTrigger && r.state == s
    ensures s.armed ==> r.message == AlarmTriggered && r.state == SystemState(true, true)
  {
    if s.armed then Outcome(Ok, AlarmTriggered, s.(alarmTriggered := true))
    else Outcome(Forbidden, CannotTrigger, s)
  }

  function Step(s: SystemState, op: Op): (o: Outcome) {
    match op
    case Query => GetState(s)
    case Arm => ArmSystem(s)
    case Disarm => DisarmSystem(s)
    case Trigger => TriggerAlarm(s)
  }

  /** The state after handling `ops` in order, starting from `s`. */
  function Run(s: SystemState, ops: seq<Op>): (last: SystemState)
    decreases |ops|
  {
    if |ops| == 0 then s else Run(Step(s, ops[0]).state, ops[1..])
  }

  /** The only refusal among the four handlers is a trigger while disarmed. */
  lemma OnlyTriggerIsRefused(s: SystemState, op: Op)
    ensures Step(s, op).status != Ok <==> op == Trigger && !s.armed
    ensures Step(s, op).status in {Ok, Forbidden}
  {
  }

  /** A refused request leaves the state as it was. */
  lemma RefusalChangesNothing(s: SystemState, op: Op)
    ensures Step(s, op).status != Ok ==> Step(s, op).state == s
  {
  }

  lemma StepKeepsConsistent(s: SystemState, op: Op)
    requires Consistent(s)
    ensures Consistent(Step(s, op).state)
  {
  }

  lemma {:induction false} RunKeepsConsistent(s: SystemState, ops: seq<Op>)
    requires Consistent(s)
    ensures Consistent(Run(s, ops))
    decreases |ops|
  {
    if |ops| > 0 {
      StepKeepsConsistent(s, ops[0]);
      RunKeepsConsistent(Step(s, ops[0]).state, ops[1..]);
    }
  }

  ghost predicate Reachable(s: SystemState) {
    exists ops: seq<Op> :: Run(Initial, ops) == s
  }

  /** The reachable states are exactly the consistent ones: disarmed, armed
      and quiet, armed and alarming. */
  lemma ReachableIffConsistent(s: SystemState)
    ensures Reachable(s) <==> Consistent(s)
  {
    if Reachable(s) {
      var ops: seq<Op> :| Run(Initial, ops) == s;
      RunKeepsConsistent(Initial, ops);
    }
    if Consistent(s) {
      if !s.armed {
        assert Run(Initial, []) == s;
      } else if !s.alarmTriggered {
        assert Run(Initial, [Arm]) == Run(SystemState(true, false), []) == s;
      } else {
        assert [Arm, Trigger][1..] == [Trigger];
        assert Run(Initial, [Arm, Trigger]) == Run(SystemState(true, true), []) == s;
      }
    }
  }

  /** On a consistent state a disarm always ends disarmed with no alarm. */
  lemma DisarmQuiets(s: SystemState)
    requires Consistent(s)
    ensures Step(s, Disarm).state == Initial
  {
  }

  /** Arming, disarming and triggering are each idempotent on the state. */
  lemma TransitionsIdempotent(s: SystemState, op: Op)
    ensures Step(Step(s, op).state, op).state == Step(s, op).state
  {
  }

  /** Whatever the state, arming and then triggering answers 200 and ends
      armed and alarming. */
  lemma ArmThenTrigger(s: SystemState)
    ensures TriggerAlarm(ArmSystem(s).state) == Outcome(Ok, AlarmTriggered, SystemState(true, true))
  {
  }
}

=== FILE: http.dfy ===
/** The HTTP status codes the handlers answer with. */
module Http {

  datatype Status =
    | Ok             // 200
    | BadRequest     // 400: a required field is missing
    | Forbidden      // 403: trigger while disarmed
    | NotFound       // 404: no image data
    | InternalError  // 500: a TypeError escaped the handler
}

=== FILE: js_value.dfy ===
/** JavaScript values as they arrive in a parsed request body, and the two
    pieces of the language the server's handlers lean on: the truthiness
    test of `if (a && b)` / `if (!a || !b)`, and object destructuring
    (`const { a, b } = v`), which throws a TypeError on null or undefined. */
module JsValues {

  /** A value produced by the JSON or url-encoded body parsers. Parsing JSON
      never yields NaN, but a literal too large for a double (`1e400`)
      yields Infinity or -Infinity, so a number is a finite real or an
      infinity; -0 and 0 are one value here because truthiness cannot tell
      them apart. */
  datatype JsValue =
    | Undefined
    | Null
    | Bool(b: bool)
    | Num(n: real)
    | Infinity(negative: bool)
    | Str(s: string)
    | Arr(elems: seq<JsValue>)
    | Obj(props: map<string, JsValue>)

  /** ToBoolean: the falsy values are undefined, null, false, 0 and "";
      every array and every object, even an empty one, is truthy. */
  predicate Truthy(v: JsValue)
    ensures !Truthy(v) <==> v == Undefined || v == Null || v == Bool(false) || v == Num(0.0) || v == Str("")
  {
    match v
    case Undefined => false
    case Null => false
    case Bool(b) => b
    case Num(n) => n != 0.0
    case Infinity(_) => true
    case Str(s) => s != ""
    case Arr(_) => true
    case Obj(_) => true
  }

  /** The two values whose destructuring throws. */
  predicate Nullish(v: JsValue) {
    v.Undefined? || v.Null?
  }

  /** The result of evaluating a statement that may throw a TypeError. */
  datatype Completion<+T> = Normal(value: T) | TypeError

  /** Property read `v.key` on a value that is not null or undefined. None of
      the names the server reads (sensorType, value, timestamp, image,
      sensors, images) is inherited from a built-in prototype, so on
      anything but an object carrying the key it is undefined. */
  function Prop(v: JsValue, key: string): (r: JsValue)
    ensures v.Obj? && key in v.props ==> r == v.props[key]
    ensures r != Undefined ==> v.Obj? && key in v.props
  {
    match v
    case Obj(props) => if key in props then props[key] else Undefined
    case _ => Undefined
  }
}

=== FILE: latest_image.dfy ===
/** GET /api/latest-image: a `reduce` with no initial value over the image
    store, keeping the accumulator only when its date is strictly later
    than the current element's. Date parsing is a parameter `dateOf`; its
    result is a time value in milliseconds, or NaN for a string it cannot
    parse. */
module LatestImage {
  import opened JsValues
  import opened Telemetry

  datatype TimeValue = NaN | Ms(ms: int)

  /** `a > b` on two dates: false whenever either is NaN. */
  predicate Later(a: TimeValue, b: TimeValue)
    ensures Later(a, b) ==> a != b && !(b.Ms? && a.Ms? && b.ms >= a.ms)
    ensures a.NaN? || b.NaN? ==> !Later(a, b)
    ensures a.Ms? && b.Ms? && a.ms == b.ms ==> !Later(a, b)
    ensures a.Ms? && b.Ms? && a.ms > b.ms ==> Later(a, b)
  {
    a.Ms? && b.Ms? && a.ms > b.ms
  }

  /** The reducer: keep `latest` only when strictly later, else take `current`. */
  function Pick(latest: ImageRecord, current: ImageRecord, dateOf: JsValue -> TimeValue): (r: ImageRecord)
    ensures r == latest || r == current
    ensures dateOf(latest.timestamp) == dateOf(current.timestamp) ==> r == current
    ensures dateOf(current.timestamp).NaN? || dateOf(latest.timestamp).NaN? ==> r == current
    ensures r != current ==> Later(dateOf(latest.timestamp), dateOf(current.timestamp))
    ensures Later(dateOf(latest.timestamp), dateOf(current.timestamp)) ==> r == latest
  {
    if Later(dateOf(latest.timestamp), dateOf(current.timestamp)) then latest else current
  }

  /** `reduce` without an initial value, as a left fold from `acc`. */
  function Reduce(acc: ImageRecord, rest: seq<ImageRecord>, dateOf: JsValue -> TimeValue): (r: ImageRecord)
    ensures r == acc || r in rest
    decreases |rest|
  {
    if |rest| == 0 then acc
    else
      var r := Reduce(Pick(acc, rest[0], dateOf), rest[1..], dateOf);
      assert forall x :: x in rest[1..] ==> x in rest;
      r
  }

  datatype Selection = NoImageData | Latest(record: ImageRecord)

  function SelectLatest(images: seq<ImageRecord>, dateOf: JsValue -> TimeValue): (r: Selection)
    ensures r.NoImageData? <==> |images| == 0
    ensures r.Latest? ==> r.record in images
  {
    if |images| == 0 then NoImageData
    else Latest(Reduce(images[0], images[1..], dateOf))
  }

  function Time(s: seq<ImageRecord>, dateOf: JsValue -> TimeValue, j: nat): (t: TimeValue)
    requires j < |s|
  {
    dateOf(s[j].timestamp)
  }

  /** Every one of the first `n` images has a parseable timestamp. */
  predicate Dated(s: seq<ImageRecord>, dateOf: JsValue -> TimeValue, n: nat)
    requires n <= |s|
  {
    forall j :: 0 <= j < n ==> Time(s, dateOf, j).Ms?
  }

  /** Reference definition: among the first `n` images, `i` holds a maximal
      timestamp and every later image is strictly earlier. */
  predicate IsLastMax(s: seq<ImageRecord>, dateOf: JsValue -> TimeValue, n: nat, i: nat)
    requires n <= |s|
  {
    && i < n
    && Dated(s, dateOf, n)
    && (forall j :: 0 <= j < n ==> Time(s, dateOf, j).ms <= Time(s, dateOf, i).ms)
    && (forall j :: i < j < n ==> Time(s, dateOf, j).ms < Time(s, dateOf, i).ms)
  }

  /** The index the fold keeps after its first `n` images. */
  function LatestIn(s: seq<ImageRecord>, dateOf: JsValue -> TimeValue, n: nat): (i: nat)
    requires 1 <= n <= |s|
    ensures i < n
    ensures i == n - 1 || Later(Time(s, dateOf, i), Time(s, dateOf, n - 1))
    decreases n
  {
    if n == 1 then 0
    else
      var i := LatestIn(s, dateOf, n - 1);
      if Later(Time(s, dateOf, i), Time(s, dateOf, n - 1)) then i else n - 1
  }

  /** On dated images the fold's index is the last maximal one. */
  lemma {:induction false} LatestInIsLastMax(s: seq<ImageRecord>, dateOf: JsValue -> TimeValue, n: nat)
    requires 1 <= n <= |s|
    requires Dated(s, dateOf, n)
    ensures IsLastMax(s, dateOf, n, LatestIn(s, dateOf, n))
    decreases n
  {
    if n > 1 {
      LatestInIsLastMax(s, dateOf, n - 1);
    }
  }

  /** There is at most one last maximal index. */
  lemma LastMaxUnique(s: seq<ImageRecord>, dateOf: JsValue -> TimeValue, n: nat, i: nat, k: nat)
    requires n <= |s|
    requires IsLastMax(s, dateOf, n, i) && IsLastMax(s, dateOf, n, k)
    ensures i == k
  {
    assert Time(s, dateOf, i).ms <= Time(s, dateOf, k).ms <= Time(s, dateOf, i).ms;
  }

  /** The element fold and the index fold agree. */
  lemma {:induction false} ReduceFollowsLatestIn(s: seq<ImageRecord>, dateOf: JsValue -> TimeValue, n: nat)
    requires 1 <= n <= |s|
    ensures Reduce(s[LatestIn(s, dateOf, n)], s[n..], dateOf) == s[LatestIn(s, dateOf, |s|)]
    decreases |s| - n
  {
    if n < |s| {
      assert s[n..][1..] == s[n + 1..];
      ReduceFollowsLatestIn(s, dateOf, n + 1);
    }
  }

  lemma SelectLatestIsLatestIn(images: seq<ImageRecord>, dateOf: JsValue -> TimeValue)
    requires |images| > 0
    ensures SelectLatest(images, dateOf) == Latest(images[LatestIn(images, dateOf, |images|)])
  {
    ReduceFollowsLatestIn(images, dateOf, 1);
  }

  /** With every timestamp parseable, the selected image has the greatest
      timestamp, and on a tie it is the last of those that share it. */
  lemma SelectLatestIsLastMax(images: seq<ImageRecord>, dateOf: JsValue -> TimeValue)
    requires |images| > 0
    requires Dated(images, dateOf, |images|)
    ensures exists i: nat :: IsLastMax(images, dateOf, |images|, i) && SelectLatest(images, dateOf) == Latest(images[i])
  {
    SelectLatestIsLatestIn(images, dateOf);
    LatestInIsLastMax(images, dateOf, |images|);
  }

  /** The fold ends on the last image unless that image is strictly beaten;
      in particular a last image whose timestamp does not parse always wins. */
  lemma LastImageWinsUnlessBeaten(images: seq<ImageRecord>, dateOf: JsValue -> TimeValue)
    requires |images| > 0
    ensures SelectLatest(images, dateOf).record == images[|images| - 1] ||
      Later(dateOf(SelectLatest(images, dateOf).record.timestamp), Time(images, dateOf, |images| - 1))
    ensures Time(images, dateOf, |images| - 1).NaN? ==>
      SelectLatest(images, dateOf).record == images[|images| - 1]
  {
    SelectLatestIsLatestIn(images, dateOf);
  }
}

=== FILE: server.dfy ===
/** The whole server as one state: the in-memory arming state and the two
    stores, and one handler per route. */
module Server {
  import opened JsValues
  import opened Http
  import Alarm
  import opened Telemetry
  import opened LatestImage

  datatype Server = Server(state: Alarm.SystemState, sensors: seq<SensorRecord>, images: seq<ImageRecord>)

  /** At start-up the arming state is the initial one, and each store holds
      whatever its file held (an empty array when the file was missing). */
  function Boot(sensorsOnDisk: seq<SensorRecord>, imagesOnDisk: seq<ImageRecord>): (srv: Server) {
    Server(Alarm.Initial, sensorsOnDisk, imagesOnDisk)
  }

  datatype Request =
    | GetState                   // GET  /state
    | PostArm                    // POST /arm
    | PostDisarm                 // POST /disarm
    | PostTrigger                // POST /trigger
    | PostBatch(body: JsValue)   // POST /api/batch-update
    | PostSensor(body: JsValue)  // POST /api/sensor-data
    | PostImage(body: JsValue)   // POST /api/all-image-data
    | GetLatestImage             // GET  /api/latest-image
    | GetSensorData              // GET  /api/sensor-data
    | GetImageData               // GET  /api/image-data

  predicate IsAlarmRequest(req: Request) {
    req.GetState? || req.PostArm? || req.PostDisarm? || req.PostTrigger?
  }

  predicate IsRead(req: Request) {
    req.GetState? || req.GetLatestImage? || req.GetSensorData? || req.GetImageData?
  }

  datatype Body =
    | StateReport(message: Alarm.Message, state: Alarm.SystemState)
    | Acknowledged
    | Rejected
    | NoImages
    | Image(image: JsValue, timestamp: JsValue)
    | SensorList(sensors: seq<SensorRecord>)
    | ImageList(images: seq<ImageRecord>)
    | Crashed

  datatype Response = Response(status: Status, body: Body)

  datatype Reply = Reply(response: Response, next: Server)

  function AlarmOp(req: Request): (op: Alarm.Op)
    requires IsAlarmRequest(req)
  {
    match req
    case GetState => Alarm.Query
    case PostArm => Alarm.Arm
    case PostDisarm => Alarm.Disarm
    case PostTrigger => Alarm.Trigger
  }

  function Answer(status: Status): (b: Body) {
    match status
    case Ok => Acknowledged
    case BadRequest => Rejected
    case _ => Crashed
  }

  /** Handles one request; `dateOf` stands for `new Date(...)`. */
  function Handle(srv: Server, req: Request, dateOf: JsValue -> TimeValue): (r: Reply)
    ensures IsAlarmRequest(req) ==>
      r.next.sensors == srv.sensors && r.next.images == srv.images
    ensures !IsAlarmRequest(req) ==> r.next.state == srv.state
    ensures IsRead(req) ==> r.next == srv
    ensures srv.sensors <= r.next.sensors && AllValid(r.next.sensors[|srv.sensors|..], ValidSensor)
    ensures srv.images <= r.next.images && AllValid(r.next.images[|srv.images|..], ValidImage)
    ensures r.response.status == Forbidden <==> req.PostTrigger? && !srv.state.armed
    ensures r.response.status == NotFound <==> req.GetLatestImage? && |srv.images| == 0
    // Which handler each route runs.
    ensures req.GetState? ==> r.response == Response(Ok, StateReport(Alarm.StateRetrieved, srv.state))
    ensures req.PostArm? ==>
      && r.response.status == Ok && r.next.state.armed
      && r.next.state.alarmTriggered == srv.state.alarmTriggered
      && r.response.body == StateReport(Alarm.ArmSystem(srv.state).message, r.next.state)
    ensures req.PostDisarm? ==>
      && r.response.status == Ok && !r.next.state.armed
      && (srv.state.armed ==> r.next.state == Alarm.Initial)
      && (!srv.state.armed ==> r.next.state == srv.state)
      && r.response.body == StateReport(Alarm.DisarmSystem(srv.state).message, r.next.state)
    ensures req.PostTrigger? && srv.state.armed ==>
      r.response == Response(Ok, StateReport(Alarm.AlarmTriggered, Alarm.SystemState(true, true)))
      && r.next.state == Alarm.SystemState(true, true)
    ensures req.PostTrigger? && !srv.state.armed ==>
      r.response == Response(Forbidden, StateReport(Alarm.CannotTrigger, srv.state))
    ensures req.PostBatch? ==>
      var o := BatchUpdate(srv.sensors, srv.images, req.body);
      r.response.status == o.status && r.next.sensors == o.sensors && r.next.images == o.images
    ensures req.PostSensor? ==>
      var o := PostSensorData(srv.sensors, req.body);
      r.response.status == o.status && r.next.sensors == o.store
    ensures req.PostImage? ==>
      var o := PostImageData(srv.images, req.body);
      r.response.status == o.status && r.next.images == o.store
    ensures req.GetLatestImage? && |srv.images| > 0 ==>
      var latest := SelectLatest(srv.images, dateOf).record;
      r.response == Response(Ok, Image(latest.image, latest.timestamp))
    ensures req.GetLatestImage? && |srv.images| == 0 ==> r.response == Response(NotFound, NoImages)
    ensures req.GetSensorData? ==> r.response == Response(Ok, SensorList(srv.sensors))
    ensures req.GetImageData? ==> r.response == Response(Ok, ImageList(srv.images))
  {
    match req
    case GetState | PostArm | PostDisarm | PostTrigger =>
      var o := Alarm.Step(srv.state, AlarmOp(req));
      Reply(Response(o.status, StateReport(o.message, o.state)), srv.(state := o.state))
    case PostBatch(body) =>
      var o := BatchUpdate(srv.sensors, srv.images, body);
      Reply(Response(o.status, Answer(o.status)), srv.(sensors := o.sensors, images := o.images))
    case PostSensor(body) =>
      var o := PostSensorData(srv.sensors, body);
      assert o.store[|srv.sensors|..] == if o.status == Ok then [o.store[|srv.sensors|]] else [];
      Reply(Response(o.status, Answer(o.status)), srv.(sensors := o.store))
    case PostImage(body) =>
      var o := PostImageData(srv.images, body);
      assert o.store[|srv.images|..] == if o.status == Ok then [o.store[|srv.images|]] else [];
      Reply(Response(o.status, Answer(o.status)), srv.(images := o.store))
    case GetLatestImage =>
      var sel := SelectLatest(srv.images, dateOf);
      if sel.NoImageData? then Reply(Response(NotFound, NoImages), srv)
      else Reply(Response(Ok, Image(sel.record.image, sel.record.timestamp)), srv)
    case GetSensorData => Reply(Response(Ok, SensorList(srv.sensors)), srv)
    case GetImageData => Reply(Response(Ok, ImageList(srv.images)), srv)
  }

  /** The server after handling `reqs` in order. */
  function RunAll(srv: Server, reqs: seq<Request>, dateOf: JsValue -> TimeValue): (last: Server)
    decreases |reqs|
  {
    if |reqs| == 0 then srv else RunAll(Handle(srv, reqs[0], dateOf).next, reqs[1..], dateOf)
  }

  /** The arming state is consistent and every stored record passed the presence test. */
  predicate Healthy(srv: Server) {
    Alarm.Consistent(srv.state) && AllValid(srv.sensors, ValidSensor) && AllValid(srv.images, ValidImage)
  }

  lemma HandleKeepsHealthy(srv: Server, req: Request, dateOf: JsValue -> TimeValue)
    requires Healthy(srv)
    ensures Healthy(Handle(srv, req, dateOf).next)
  {
  }

  /** Whatever requests arrive, in whatever order, the server stays healthy:
      no alarm on a disarmed system, no record with a missing field. */
  lemma {:induction false} RunKeepsHealthy(srv: Server, reqs: seq<Request>, dateOf: JsValue -> TimeValue)
    requires Healthy(srv)
    ensures Healthy(RunAll(srv, reqs, dateOf))
    decreases |reqs|
  {
    if |reqs| > 0 {
      HandleKeepsHealthy(srv, reqs[0], dateOf);
      RunKeepsHealthy(Handle(srv, reqs[0], dateOf).next, reqs[1..], dateOf);
    }
  }

  /** The stores are append-only: every earlier store is a prefix of every later one. */
  lemma {:induction false} RunOnlyAppends(srv: Server, reqs: seq<Request>, dateOf: JsValue -> TimeValue)
    ensures srv.sensors <= RunAll(srv, reqs, dateOf).sensors
    ensures srv.images <= RunAll(srv, reqs, dateOf).images
    decreases |reqs|
  {
    if |reqs| > 0 {
      var next := Handle(srv, reqs[0], dateOf).next;
      RunOnlyAppends(next, reqs[1..], dateOf);
    }
  }

  /** Starting from empty files, every reachable server is healthy. */
  lemma BootIsHealthy(reqs: seq<Request>, dateOf: JsValue -> TimeValue)
    ensures Healthy(RunAll(Boot([], []), reqs, dateOf))
  {
    RunKeepsHealthy(Boot([], []), reqs, dateOf);
  }

  /** A sensor post of a complete record is visible in the next listing. */
  lemma PostedSensorIsListed(srv: Server, body: JsValue, dateOf: JsValue -> TimeValue)
    requires Handle(srv, PostSensor(body), dateOf).response.status == Ok
    ensures
      var listing := Handle(Handle(srv, PostSensor(body), dateOf).next, GetSensorData, dateOf).response.body;
      listing.SensorList? && listing.sensors == srv.sensors + [SensorOf(body)]
  {
  }
}

=== FILE: telemetry.dfy ===
/** The sensor and image stores and the three handlers that append to them:
    POST /api/batch-update, POST /api/sensor-data and POST /api/all-image-data.
    Each store is the JSON array held in its file, read whole and written
    back whole, here an in-memory sequence. */
module Telemetry {
  import opened JsValues
  import opened Http

  datatype SensorRecord = SensorRecord(sensorType: JsValue, value: JsValue, timestamp: JsValue)

  datatype ImageRecord = ImageRecord(image: JsValue, timestamp: JsValue)

  /** `const { sensorType, value, timestamp } = v` on a value that does not throw. */
  function SensorOf(v: JsValue): (r: SensorRecord)
    ensures !v.Obj? ==> r == SensorRecord(Undefined, Undefined, Undefined)
    ensures v.Obj? && "sensorType" in v.props && "value" in v.props && "timestamp" in v.props ==>
      r == SensorRecord(v.props["sensorType"], v.props["value"], v.props["timestamp"])
  {
    SensorRecord(Prop(v, "sensorType"), Prop(v, "value"), Prop(v, "timestamp"))
  }

  /** `const { image, timestamp } = v` on a value that does not throw. */
  function ImageOf(v: JsValue): (r: ImageRecord)
    ensures !v.Obj? ==> r == ImageRecord(Undefined, Undefined)
    ensures v.Obj? && "image" in v.props && "timestamp" in v.props ==>
      r == ImageRecord(v.props["image"], v.props["timestamp"])
  {
    ImageRecord(Prop(v, "image"), Prop(v, "timestamp"))
  }

  /** The presence test: every required field truthy. Its negation is the
      rejection test of the single-record post; a value of 0 or "" is missing. */
  predicate ValidSensor(r: SensorRecord)
    ensures !ValidSensor(r) <==> !Truthy(r.sensorType) || !Truthy(r.value) || !Truthy(r.timestamp)
    ensures ValidSensor(r) ==> r.value != Num(0.0) && r.value != Str("") && r.value != Null
  {
    Truthy(r.sensorType) && Truthy(r.value) && Truthy(r.timestamp)
  }

  predicate ValidImage(r: ImageRecord)
    ensures !ValidImage(r) <==> !Truthy(r.image) || !Truthy(r.timestamp)
    ensures ValidImage(r) ==> r.image != Str("") && r.timestamp != Str("") && r.image != Null
  {
    Truthy(r.image) && Truthy(r.timestamp)
  }

  predicate AllValid<R>(rs: seq<R>, valid: R -> bool) {
    forall k :: 0 <= k < |rs| ==> valid(rs[k])
  }

  /** Joins the outcome of two consecutive runs of a forEach: a throw in
      either is a throw of the whole. */
  function Join<R>(a: Completion<seq<R>>, b: Completion<seq<R>>): (c: Completion<seq<R>>) {
    if a.Normal? && b.Normal? then Normal(a.value + b.value) else TypeError
  }

  /** The records a `forEach` over `entries` pushes: each entry is
      destructured with `read`, which throws on null or undefined, and kept
      when `valid` holds of it, in input order. */
  function Kept<R>(entries: seq<JsValue>, read: JsValue -> R, valid: R -> bool): (r: Completion<seq<R>>)
    ensures r.TypeError? <==> exists i :: 0 <= i < |entries| && Nullish(entries[i])
    ensures r.Normal? ==> |r.value| <= |entries| && AllValid(r.value, valid)
    decreases |entries|
  {
    if |entries| == 0 then Normal([])
    else
      var last := entries[|entries| - 1];
      var front := Kept(entries[..|entries| - 1], read, valid);
      assert forall i :: 0 <= i < |entries| - 1 ==> entries[..|entries| - 1][i] == entries[i];
      if front.TypeError? || Nullish(last) then TypeError
      else if valid(read(last)) then Normal(front.value + [read(last)])
      else front
  }

  /** One entry alone: a throw on null or undefined, else the entry when valid. */
  lemma KeptOne<R>(e: JsValue, read: JsValue -> R, valid: R -> bool)
    ensures Kept([e], read, valid) ==
      if Nullish(e) then TypeError
      else if valid(read(e)) then Normal([read(e)]) else Normal([])
  {
    assert [e][..0] == [];
    assert Kept([], read, valid) == Normal([]);
    assert [] + [read(e)] == [read(e)];
  }

  /** Filtering distributes over concatenation; with KeptOne this fixes the
      result entirely: valid entries in input order, nothing else. */
  lemma {:induction false} KeptSplit<R>(a: seq<JsValue>, b: seq<JsValue>, read: JsValue -> R, valid: R -> bool)
    ensures Kept(a + b, read, valid) == Join(Kept(a, read, valid), Kept(b, read, valid))
    decreases |b|
  {
    if |b| == 0 {
      assert a + b == a;
      assert Kept(b, read, valid) == Normal([]);
      if Kept(a, read, valid).Normal? {
        assert Kept(a, read, valid).value + [] == Kept(a, read, valid).value;
      }
    } else {
      var b' := b[..|b| - 1];
      assert (a + b)[..|a + b| - 1] == a + b';
      assert (a + b)[|a + b| - 1] == b[|b| - 1];
      var last := b[|b| - 1];
      KeptSplit(a, b', read, valid);
      var ka, kb' := Kept(a, read, valid), Kept(b', read, valid);
      if ka.Normal? && kb'.Normal? && !Nullish(last) && valid(read(last)) {
        assert ka.value + kb'.value + [read(last)] == ka.value + (kb'.value + [read(last)]);
      }
    }
  }

  /** Membership: a record is pushed exactly when some entry reads to it and is valid. */
  lemma {:induction false} KeptMembers<R>(entries: seq<JsValue>, read: JsValue -> R, valid: R -> bool, x: R)
    requires Kept(entries, read, valid).Normal?
    ensures x in Kept(entries, read, valid).value <==>
      exists i :: 0 <= i < |entries| && read(entries[i]) == x && valid(x)
    decreases |entries|
  {
    if |entries| > 0 {
      var front := entries[..|entries| - 1];
      var last := entries[|entries| - 1];
      assert forall i :: 0 <= i < |front| ==> front[i] == entries[i];
      assert entries == front + [last];
      KeptMembers(front, read, valid, x);
      if exists i :: 0 <= i < |entries| && read(entries[i]) == x && valid(x) {
        var i :| 0 <= i < |entries| && read(entries[i]) == x && valid(x);
        if i < |front| {
          assert read(front[i]) == x;
        }
      }
    }
  }

  /** When every entry is valid, nothing is dropped. */
  lemma {:induction false} KeptAllValid<R>(entries: seq<JsValue>, read: JsValue -> R, valid: R -> bool)
    requires forall i :: 0 <= i < |entries| ==> !Nullish(entries[i]) && valid(read(entries[i]))
    ensures Kept(entries, read, valid).Normal?
    ensures |Kept(entries, read, valid).value| == |entries|
    ensures forall k :: 0 <= k < |entries| ==> Kept(entries, read, valid).value[k] == read(entries[k])
    decreases |entries|
  {
    if |entries| > 0 {
      var front := entries[..|entries| - 1];
      assert forall i :: 0 <= i < |front| ==> front[i] == entries[i];
      KeptAllValid(front, read, valid);
    }
  }

  /** The `forEach`/`push` loop over an array read from the file: pushes
      each valid entry onto `store` and stops at the first throw. */
  method AppendKept<R>(store: seq<R>, entries: seq<JsValue>, read: JsValue -> R, valid: R -> bool)
    returns (out: Completion<seq<R>>)
    ensures out == Join(Normal(store), Kept(entries, read, valid))
  {
    var data := store;
    var i := 0;
    while i < |entries|
      invariant 0 <= i <= |entries|
      invariant Kept(entries[..i], read, valid).Normal?
      invariant data == store + Kept(entries[..i], read, valid).value
    {
      assert entries[..i + 1][..i] == entries[..i];
      var entry := entries[i];
      if Nullish(entry) {
        KeptSplit(entries[..i + 1], entries[i + 1..], read, valid);
        assert entries[..i + 1] + entries[i + 1..] == entries;
        return TypeError;
      }
      var rec := read(entry);
      if valid(rec) {
        data := data + [rec];
      }
      i := i + 1;
    }
    assert entries[..i] == entries;
    out := Normal(data);
  }

  /** The batch reaches the write of the sensor file: the body destructures,
      both fields are truthy, and the sensor array's forEach does not throw. */
  predicate SensorsWritten(body: JsValue) {
    && !Nullish(body)
    && Truthy(Prop(body, "sensors")) && Truthy(Prop(body, "images"))
    && Prop(body, "sensors").Arr?
    && Kept(Prop(body, "sensors").elems, SensorOf, ValidSensor).Normal?
  }

  datatype BatchOutcome = BatchOutcome(status: Status, sensors: seq<SensorRecord>, images: seq<ImageRecord>)

  /** POST /api/batch-update. The sensor file is written before the images
      are looked at, so a throw on the image side keeps the new sensors. */
  function BatchUpdate(sensors: seq<SensorRecord>, images: seq<ImageRecord>, body: JsValue): (r: BatchOutcome)
    ensures r.status in {Ok, BadRequest, InternalError}
    ensures r.status == BadRequest <==>
      !Nullish(body) && (!Truthy(Prop(body, "sensors")) || !Truthy(Prop(body, "images")))
    ensures r.status == BadRequest ==> r.sensors == sensors && r.images == images
    ensures r.status == Ok <==>
      !Nullish(body) && Prop(body, "sensors").Arr? && Prop(body, "images").Arr?
      && (forall i :: 0 <= i < |Prop(body, "sensors").elems| ==> !Nullish(Prop(body, "sensors").elems[i]))
      && (forall i :: 0 <= i < |Prop(body, "images").elems| ==> !Nullish(Prop(body, "images").elems[i]))
    ensures r.status == Ok ==>
      && r.sensors == sensors + Kept(Prop(body, "sensors").elems, SensorOf, ValidSensor).value
      && r.images == images + Kept(Prop(body, "images").elems, ImageOf, ValidImage).value
    ensures sensors <= r.sensors && AllValid(r.sensors[|sensors|..], ValidSensor)
    ensures images <= r.images && AllValid(r.images[|images|..], ValidImage)
    ensures r.status == InternalError ==> r.images == images
    ensures SensorsWritten(body) ==>
      r.sensors == sensors + Kept(Prop(body, "sensors").elems, SensorOf, ValidSensor).value
    ensures !SensorsWritten(body) ==> r.sensors == sensors
  {
    if Nullish(body) then BatchOutcome(InternalError, sensors, images)
    else
      var sensorsField := Prop(body, "sensors");
      var imagesField := Prop(body, "images");
      if !Truthy(sensorsField) || !Truthy(imagesField) then BatchOutcome(BadRequest, sensors, images)
      else if !sensorsField.Arr? then BatchOutcome(InternalError, sensors, images)
      else
        var newSensors := Kept(sensorsField.elems, SensorOf, ValidSensor);
        if newSensors.TypeError? then BatchOutcome(InternalError, sensors, images)
        else
          var sensors' := sensors + newSensors.value;
          assert sensors'[|sensors|..] == newSensors.value;
          if !imagesField.Arr? then BatchOutcome(InternalError, sensors', images)
          else
            var newImages := Kept(imagesField.elems, ImageOf, ValidImage);
            if newImages.TypeError? then BatchOutcome(InternalError, sensors', images)
            else
              var images' := images + newImages.value;
              assert images'[|images|..] == newImages.value;
              BatchOutcome(Ok, sensors', images')
  }

  datatype Posted<R> = Posted(status: Status, store: seq<R>)

  /** POST /api/sensor-data. */
  function PostSensorData(store: seq<SensorRecord>, body: JsValue): (r: Posted<SensorRecord>)
    ensures r.status in {Ok, BadRequest, InternalError}
    ensures r.status == BadRequest <==>
      !Nullish(body) &&
      (!Truthy(Prop(body, "sensorType")) || !Truthy(Prop(body, "value")) || !Truthy(Prop(body, "timestamp")))
    ensures r.status == Ok <==> !Nullish(body) && ValidSensor(SensorOf(body))
    ensures r.status != Ok ==> r.store == store
    ensures r.status == Ok ==>
      && |r.store| == |store| + 1 && r.store[..|store|] == store
      && r.store[|store|] == SensorRecord(Prop(body, "sensorType"), Prop(body, "value"), Prop(body, "timestamp"))
      && ValidSensor(r.store[|store|])
  {
    if Nullish(body) then Posted(InternalError, store)
    else
      var rec := SensorOf(body);
      if !ValidSensor(rec) then Posted(BadRequest, store)
      else
        assert (store + [rec])[..|store|] == store;
        Posted(Ok, store + [rec])
  }

  /** POST /api/all-image-data. */
  function PostImageData(store: seq<ImageRecord>, body: JsValue): (r: Posted<ImageRecord>)
    ensures r.status in {Ok, BadRequest, InternalError}
    ensures r.status == BadRequest <==>
      !Nullish(body) && (!Truthy(Prop(body, "image")) || !Truthy(Prop(body, "timestamp")))
    ensures r.status == Ok <==> !Nullish(body) && ValidImage(ImageOf(body))
    ensures r.status != Ok ==> r.store == store
    ensures r.status == Ok ==>
      && |r.store| == |store| + 1 && r.store[..|store|] == store
      && r.store[|store|] == ImageRecord(Prop(body, "image"), Prop(body, "timestamp"))
      && ValidImage(r.store[|store|])
  {
    if Nullish(body) then Posted(InternalError, store)
    else
      var rec := ImageOf(body);
      if !ValidImage(rec) then Posted(BadRequest, store)
      else
        assert (store + [rec])[..|store|] == store;
        Posted(Ok, store + [rec])
  }

  /** The single-record posts and the batch filter apply the same presence
      test: a single post stores exactly what a batch of that one entry would. */
  lemma SingleMatchesBatch(sensors: seq<SensorRecord>, images: seq<ImageRecord>, body: JsValue)
    requires !Nullish(body)
    ensures PostSensorData(sensors, body).store == sensors + Kept([body], SensorOf, ValidSensor).value
    ensures PostImageData(images, body).store == images + Kept([body], ImageOf, ValidImage).value
  {
  }
}
